=== FILE: README.md ===
# Verified model of the wiki's hydration bridge and its JSON props

This project models, in Dafny, the logic that connects the wiki's server-rendered pages to its
client-side Svelte components, and proves properties of that model.

- **The custom-element bridge** (`svelte/src/register.ts`). `registerSvelteElement` binds a tag to
  a component and a list of declared prop names, once per tag. Each element of that tag is a
  two-state machine: Unmounted while `componentInstance` is null, Mounted otherwise. On connect it
  resolves its props. It first tries the `<script data-for>` payload whose `data-for` matches the
  element's id, then falls back to its attributes. It then mounts the component into itself under
  a fresh handle. On disconnect it unmounts that handle exactly once.
- **The entry script** (`svelte/src/main.ts`). It registers `c-header`, `c-footer` and
  `l-wb-docs`, then dispatches `svelte-ready`.
- **The two documentation templates** (`site/templates/doc-master.php`, `site/templates/webflow.php`).
  They filter-and-map the page's CMS blocks into JSON records, applying per-field defaults. They
  build the page props for `l-wb-docs`, and emit the placeholder element with its payload script.
- **The configuration helpers** (`site/config/config.php`). These are the proxied site URL, the
  debug flag, the thumbnail driver, the query-free panel path and the two menu `current` checks
  built on it, and the `site` routes.

Files: `wrappers.dfy` (Option), `ascii.dfy` (ASCII lowercasing), `json.dfy` (JSON values, the
abstract parser), `register.dfy` (module `Register`), `main_script.dfy` (module `MainScript`),
`templates.dfy` (module `Templates`), `config.dfy` (module `Config`).

The bridge and the entry script change state, so they are modelled as classes. `SvelteElement`
has the source's `componentInstance` field. Its invariant `Valid` says the element has at most one
live Svelte instance, namely the one it holds. `Document` holds the document's payload scripts in
document order. `Svelte` holds the live instances, each with the element it was mounted into, and
a log of `mount`/`unmount` calls. `CustomElementRegistry` holds the tag definitions and `Window`
the dispatched events.

Each method is specified against pure functions: `ResolvedProps`, `ScriptsAfterConnect`,
`Registered` and `RegisterAll`. The properties are proved as lemmas about those functions. The
serialisation loops are methods proved equal to a filter-map function. The lemmas about that
function state order preservation, dropped types, the record shapes and the defaults.

JSON.parse is a parameter `parse: string -> Option<Json>`, where None is the SyntaxError it
throws. The template's JSON encoder is also a parameter. The CMS conversions (kirbytext, `toBool`,
`toFile`) are parameters too. So are the environment reads: `$_SERVER`, `getenv` and
`extension_loaded`.

An element's attributes are a map keyed by attribute name. HTML stores these names in ASCII
lowercase, and `getAttribute` lowercases the name it is asked for. So a declared prop `siteTitle`
reads the attribute `sitetitle`, and the prop keeps its declared spelling.

The browser does not receive the encoded payload as it is. The model reads the payload script's
text as the HTML tokenizer's plain script-data state does: up to the first `</script` end tag
(`Templates.ScriptData`). Two lemmas connect the server and client sides:
- `Templates.PayloadBreakout` shows the templates as written. They encode with
  `JSON_UNESCAPED_SLASHES` and leave `<` as it is, so a prop containing `</script>` cuts the
  payload short, and the layout mounts with no props.
- `Templates.PagePropsReachLayout` covers the payload encoded with `JSON_HEX_TAG`, which leaves no
  `<` in it. Without a `<` the tokenizer never leaves its plain state, so the browser reads the
  whole payload. Suppose `parse` reads that text back as the page props. Then connecting the page's
  `l-wb-docs` placeholder mounts the layout with exactly the page props.

`MainScript.LayoutTagsUnregistered` records a gap in that contract. The home, default and error
templates emit `l-home`, `l-default` and `l-error` (`site/templates/home.php:15`,
`site/templates/default.php:15`, `site/templates/error.php:15`). The entry script does not
register these tags, so those placeholders are never hydrated.

## Model

| member | source | states |
|---|---|---|
| `Register.FirstFor` | svelte/src/register.ts:20 | The script `querySelector` finds is the first in document order whose `data-for` equals the id. It is None only when no script carries that id. |
| `Register.GetAttribute` | svelte/src/register.ts:33 | Defines `getAttribute(name)`, which looks up the lowercased name. `Register.AttributeNamesIgnoreCase` and `Register.OneSourceOfProps` state its effect. |
| `Register.IdOf` | svelte/src/register.ts:17-19 | Defines the id that `if (id)` accepts: present and non-empty. `Register.PayloadReachesElement` and `Register.OneSourceOfProps` use it. |
| `Register.PayloadText` | svelte/src/register.ts:23 | Defines `script.textContent \|\| '{}'`: empty text is read as `"{}"`. `Register.EmptyScriptFallsBack` states its effect. |
| `Register.PayloadProps` | svelte/src/register.ts:21-26 | A payload yields the object JSON.parse returns. It yields `{}` when the text is malformed (the caught error), and also when the text parses to something other than an object. Empty script text is parsed as `"{}"`. |
| `Register.NullPayload` | svelte/src/register.ts:23-31 | A payload that parses to `null` makes `Object.keys` throw as written. The model instead gives `{}` as its embedded props, so the attribute fallback decides (see Findings). |
| `Json.KeyCountAsWritten` | svelte/src/register.ts:31 | `Object.keys(props).length` on any parsed value. It throws (None) exactly for `null`. It counts an object's keys, and is 0 for numbers and booleans. |
| `Register.AttributeValue` | svelte/src/register.ts:35-39 | Defines one fallback value: the attribute's JSON value, or the raw string when JSON.parse throws. `Register.AttributeProps` and `Register.OneSourceOfProps` state it per name. |
| `Register.FallbackProps` | svelte/src/register.ts:31-42 | Defines the attribute fallback. `Register.OneSourceOfProps` states its keys and values, and `Register.AttributeProps` is proved equal to it. |
| `Register.EmbeddedProps` | svelte/src/register.ts:19-29 | Defines the props the matched payload supplies, `{}` without an id or a match. `Register.PayloadWins`, `Register.MalformedPayloadFallsBack` and `Register.NullPayload` state its cases. |
| `Register.ResolvedProps` | svelte/src/register.ts:16-42 | Defines the props `connectedCallback` mounts with: the embedded props when non-empty, else the fallback. `Register.OneSourceOfProps` states this. |
| `Register.ScriptsAfterConnect` | svelte/src/register.ts:19-29 | Defines the document's scripts after a connect. `Register.MatchedScriptRemoved` states what it removes. |
| `Register.PayloadWins` | svelte/src/register.ts:17-31 | A matching payload that parses to a non-empty object is used as the props, and the attributes are not read. |
| `Register.PayloadReachesElement` | svelte/src/register.ts:16-31 | Take an element whose id only one script carries, with no earlier script claiming it. It mounts with that script's non-empty object, and the connect removes exactly that script. |
| `Register.MalformedPayloadFallsBack` | svelte/src/register.ts:22-42 | A malformed payload gives `{}` with no error escaping, so the attribute fallback decides the props. |
| `Register.EmptyScriptFallsBack` | svelte/src/register.ts:23-31 | An empty payload script is read as `"{}"`: its props are those of `"{}"`, which is empty, so the attribute fallback decides the props. |
| `Register.OneSourceOfProps` | svelte/src/register.ts:16-42 | The props come from exactly one source. Either they are the non-empty payload, or the payload is empty and they are the fallback. The fallback's keys are exactly the declared names whose lowercased attribute is present, and each value is the parsed-or-raw attribute. |
| `Register.AttributeNamesIgnoreCase` | svelte/src/register.ts:33 | A declared `siteTitle` reads the attribute the HTML parser stored as `sitetitle`. The prop is keyed `siteTitle`. |
| `Register.MatchedScriptRemoved` | svelte/src/register.ts:19-28 | Connecting removes exactly the matched script, whether or not its text parses. The document afterwards is the scripts before it followed by the scripts after it, in order. So it has one script fewer and one fewer carrier of the id. |
| `Register.ReconnectReadsAttributes` | svelte/src/register.ts:19-42 | Once an element's only payload script has been consumed, a later connect of that element resolves its props from the attributes. |
| `Register.AttributeProps` | svelte/src/register.ts:31-42 | The `for (const name of propNames)` loop. The keys it sets are exactly the declared names with a non-null attribute, looked up lowercased. Each value is the attribute's JSON value, or the raw string when parsing fails. |
| `Register.SvelteElement.constructor` | svelte/src/register.ts:9-10 | A new element is Unmounted (`componentInstance` null) and bound to its definition's component and prop names. |
| `Register.SvelteElement.ConnectedCallback` | svelte/src/register.ts:12-45 | It keeps `Valid`: at most one live instance targets the element, and it is the one held. When Mounted, connecting changes nothing. When Unmounted, it clears the content and consumes the matched script. It calls `mount` exactly once with `target` this element and the resolved props, and stores the fresh live handle. |
| `Register.SvelteElement.DisconnectedCallback` | svelte/src/register.ts:47-51 | It keeps `Valid`, so afterwards no live instance targets the element. When Unmounted, it changes nothing. When Mounted, it calls `unmount` on the instance exactly once and resets `componentInstance` to null. |
| `Register.ReconnectMountsAfresh` | svelte/src/register.ts:12-51 | The sequence connect, connect, disconnect, disconnect, connect reaches Svelte as mount, unmount, mount. The second handle is a different object from the first. Only the second is live, and it is the element's one live instance. |
| `Register.Svelte.Mount` | svelte/src/register.ts:44 | `mount` returns a fresh instance carrying the component, the target and the props. It adds the instance to the live set and logs the call. |
| `Register.Svelte.Unmount` | svelte/src/register.ts:49 | `unmount` removes the instance from the live set and logs the call. |
| `Register.Document.RemoveScript` | svelte/src/register.ts:27 | `script.remove()` deletes that one script and keeps the others in order. |
| `Register.Registered` | svelte/src/register.ts:54-56 | Registering adds the tag only when it is absent. Every earlier definition is kept unchanged. |
| `Register.RegisteredIdempotent` | svelte/src/register.ts:54-56 | Registering the same tag again, with any component and prop list, leaves the registry unchanged. |
| `Register.CustomElementRegistry.Get` | svelte/src/register.ts:54 | `customElements.get(tag)` is defined exactly for registered tags and returns their definition. |
| `Register.CustomElementRegistry.Define` | svelte/src/register.ts:55 | `customElements.define` adds the one new tag to the registry and keeps every other definition. The upgrade of elements already in the document is not modelled (see Left out). |
| `Register.RegisterSvelteElement` | svelte/src/register.ts:4-57 | The registry afterwards is `Registered(before, tag, (component, propNames))`: the tag is defined only if it was absent. |
| `MainScript.RegisterAll` | svelte/src/main.ts:7-9 | Defines the registrations applied in order. `MainScript.RegisterAllKeeps`, `MainScript.RegisterAllIdempotent` and `MainScript.BootRegistry` state its properties. |
| `MainScript.RegisterAllKeeps` | svelte/src/main.ts:7-9 | A run of registrations adds exactly the registered tags and never changes an existing definition. |
| `MainScript.RegisterAllNoOp` | svelte/src/main.ts:7-9 | Registrations whose tags are all defined leave the registry unchanged. |
| `MainScript.RegisterAllIdempotent` | svelte/src/main.ts:7-9 | Running the script's registrations twice gives the registry that one run gives. |
| `MainScript.BootRegistry` | svelte/src/main.ts:7-9 | The three tags are defined afterwards. `c-header` maps to `['siteTitle','homeUrl','panelUrl']`, `c-footer` to `['year','siteTitle']` and `l-wb-docs` to `['pageTitle','pageDescription','blocks']`, each with its component, unless the tag was defined earlier. Nothing else changes. |
| `MainScript.LayoutTagsUnregistered` | svelte/src/main.ts:7-9 | `l-home`, `l-default` and `l-error`, which the other templates emit, are not registered. |
| `MainScript.Window.DispatchEvent` | svelte/src/main.ts:11 | Dispatching appends one event, which records the tags defined at that moment. |
| `MainScript.RunMainScript` | svelte/src/main.ts:7-11 | The registry afterwards is the three registrations applied in order. Exactly one `svelte-ready` event is dispatched, after all three tags are defined. |
| `Templates.TextData` | site/templates/doc-master.php:9-22 | Defines a text block's data. `Templates.DataShape` and `Templates.BlockDefaults` state its keys and its `headingLevel` default. |
| `Templates.Value` | site/templates/doc-master.php:14 | Defines `->value()` on a field, with a missing field read as `""`. `Templates.DataShape` and `Templates.BlockDefaults` state the records built from it. |
| `Templates.Or` | site/templates/doc-master.php:15 | Defines `->or(d)` (also lines 33, 36, 44, 58, 75, 76, 87, 89 and 99): an empty value becomes `d`. `Templates.BlockDefaults` and `Templates.RowDefaults` state its effect on each defaulted key. |
| `Templates.FileUrl` | site/templates/doc-master.php:29 | Defines `$imageFile?->url() ?? ""` (also line 72). `Templates.RowShape` and `Templates.ImageFallbacks` state that it is `""` without a file. |
| `Templates.FileAlt` | site/templates/doc-master.php:30 | Defines `$imageFile?->alt()->value() ?? ""`. `Templates.RowShape` states that it is `""` without a file. |
| `Templates.ImageAlt` | site/templates/doc-master.php:73 | Defines the image alt chain: the block's alt, else the file's alt, else null. `Templates.ImageFallbacks` states all three cases. |
| `Templates.RowJson` | site/templates/doc-master.php:25-38 | Defines one table row record. `Templates.RowShape` and `Templates.RowDefaults` state its keys and defaults. |
| `Templates.TableData` | site/templates/doc-master.php:24-51 | Defines a table's data. `Templates.DataShape`, `Templates.TableRows` and `Templates.WebflowReducesDocMaster` state it for both templates. |
| `Templates.CalloutData` | site/templates/doc-master.php:53-64 | Defines a callout's data. `Templates.DataShape` and `Templates.BlockDefaults` state its keys and its `variant` default. |
| `Templates.ImageData` | site/templates/doc-master.php:66-80 | Defines an image block's data. `Templates.ImageFallbacks`, `Templates.DataShape` and `Templates.BlockDefaults` state it. |
| `Templates.DividerData` | site/templates/doc-master.php:82-92 | Defines a divider's data. `Templates.DataShape` and `Templates.BlockDefaults` state its keys and defaults. |
| `Templates.BlockData` | site/templates/doc-master.php:6-92 | Defines the per-type dispatch. `Templates.BlockRecord` states that a result exists exactly for the five known types. |
| `Templates.BlocksJson` | site/templates/doc-master.php:3-96 | Defines the serialised blocks as a filter-map. `Templates.BlocksJsonFilterMap` states its order and contents, and `Templates.SerializeBlocks` is proved equal to it. |
| `Templates.SerializeBlocks` | site/templates/doc-master.php:3-96 | The block loop for either template (webflow.php:4-79 is the same loop). It returns exactly the filter-map `BlocksJson` of the blocks. |
| `Templates.SerializeRows` | site/templates/doc-master.php:25-38 | The inner loop over a table's structure rows (webflow.php:22-33). It returns one row record per row, in order. |
| `Templates.BlockRecord` | site/templates/doc-master.php:6-92 | A block produces a record iff its type is one of the five known types. The record has exactly the keys `id`, `type` and `data`, with `id` and `type` copied from the block. |
| `Templates.BlocksJsonFilterMap` | site/templates/doc-master.php:6-95 | Record k is the record of the k-th block of a known type. So block order is kept and unknown types are dropped: there are never more records than blocks. Each record's `id` and `type` are its block's. |
| `Templates.DataShape` | site/templates/doc-master.php:13-90 | Each record's `data` has exactly its type's keys. For webflow (webflow.php:37) a table's keys are only `title` and `rows`. |
| `Templates.RowShape` | site/templates/doc-master.php:25-38 | A row record has the template's row keys: `imageCaption` appears only in doc-master. A row without an image file gets `""` for `image` and `imageAlt`. |
| `Templates.TableRows` | site/templates/doc-master.php:24-49 | A table yields one row record per structure row, in order, each with the row shape. |
| `Templates.ImageFallbacks` | site/templates/doc-master.php:66-80 | An image block's `alt` is its own alt when non-empty, else the file's alt, else null. `image` is the file URL, or `""` without a file. |
| `Templates.BlockDefaults` | site/templates/doc-master.php:15-89 | Each defaulted key takes the field's value when it is non-empty and the default otherwise, so it is never empty. The defaults are: `headingLevel` and `titleHeadingLevel` `"h3"`, `variant` `"info"`, `fit` `"contain"`, `maxWidth` `"lg"`, `style` `"line"`, `spacing` `"md"`. |
| `Templates.RowDefaults` | site/templates/doc-master.php:33-36 | A row's `headingLevel` defaults to `"h3"` and its `layout` to `"image-left"`. Neither is ever empty. |
| `Templates.WebflowReducesDocMaster` | site/templates/webflow.php:20-40 | The two templates agree on every block except tables. A webflow table keeps only doc-master's `title`, plus its rows with `imageCaption` removed. |
| `Templates.PageProps` | site/templates/doc-master.php:98-102 | Defines the page props: the title (the doc title, else the page title), the description and the blocks. `Templates.MarkupContract` states that the keys are the layout's declared props. |
| `Templates.ElementId` | site/templates/doc-master.php:103 | Defines the element id: the template prefix and the page id. `Templates.MarkupContract` states it. |
| `Templates.Render` | site/templates/doc-master.php:108-111 | Defines the emitted placeholder and its script's `data-for`. `Templates.MarkupContract` states their agreement. |
| `Templates.MarkupContract` | site/templates/doc-master.php:98-111 | The placeholder is an `l-wb-docs` whose id is the template's prefix followed by the page id: `doc-master-` here, `webflow-doc-` at webflow.php:85. That id equals the script's `data-for`. The props' keys are exactly the layout's declared prop names. |
| `Templates.EndTagFrom` | site/templates/doc-master.php:109-111 | Gives the first `</script` end tag, in any letter case, at or after a position of the payload, or None when there is none. |
| `Templates.ScriptData` | site/templates/doc-master.php:109-111 | In the tokenizer's plain script-data state, the script's text is a prefix of the payload. It is the whole payload exactly when the payload holds no end tag; otherwise it is cut at the first end tag, and no end tag starts before the cut. The escaped states are left out. |
| `Templates.ScriptDataStopsAtEndTag` | site/templates/doc-master.php:109-111 | A payload holding `</script>` after a stretch without `<` is cut to that stretch. |
| `Templates.TruncatedPayloadMountsEmpty` | svelte/src/register.ts:22-42 | A layout placeholder whose only payload does not parse mounts with `{}`, because it has no prop attributes. |
| `Templates.PayloadBreakout` | site/templates/doc-master.php:110 | As written (`JSON_UNESCAPED_SLASHES`, also webflow.php:92), an encoded payload holding `</script>` after a `<`-free, unparsable prefix reaches the browser as that prefix only, and the layout mounts with `{}` (see Findings). |
| `Templates.HexTags` | site/templates/doc-master.php:110 | `json_encode` with `JSON_HEX_TAG`: no `<` and no `>` is left in the output, and a text without them is unchanged. |
| `Templates.EscapedPayloadIntact` | site/templates/doc-master.php:110 | A payload encoded with `JSON_HEX_TAG` holds no `<`, so it holds no end tag and no `<!--`, and the browser receives all of it. |
| `Templates.PagePropsReachLayout` | site/templates/doc-master.php:103-111 | Suppose the `JSON_HEX_TAG` payload parses back to the page props and no earlier script claims the id. Then connecting the placeholder mounts the layout with exactly the page props and removes the page's script. |
| `Config.PhpEmpty` | site/config/config.php:8 | Defines PHP's `empty()` on a `$_SERVER` entry: unset, `""` or `"0"`. `Config.SiteUrl` and `Config.SiteUrlDefaults` state its effect. |
| `Config.SiteUrl` | site/config/config.php:7-12 | The URL is null unless the forwarded host is non-empty to PHP. Otherwise it is the protocol (default `https`), then `://`, then the host. |
| `Config.SiteUrlDefaults` | site/config/config.php:8-11 | With no forwarded protocol the URL is `https://` followed by the host. A host of `"0"` counts as empty. |
| `Config.DebugFlag` | site/config/config.php:14-15 | Defines the debug flag: the lowercased `KIRBY_DEBUG` is one of `1`, `true`, `yes`, `on`. `Config.DebugIgnoresCase` and `Config.DebugExamples` state its behaviour. |
| `Ascii.Lower` | site/config/config.php:14 | Defines `strtolower`, ASCII letters only; `getAttribute` lowercases names the same way (svelte/src/register.ts:33). `Config.DebugIgnoresCase` and `Register.AttributeNamesIgnoreCase` state its effect. |
| `Config.DebugIgnoresCase` | site/config/config.php:14-15 | The debug flag depends only on the lowercased `KIRBY_DEBUG`. |
| `Config.DebugExamples` | site/config/config.php:14-15 | `TRUE`, `On`, `1` and `Yes` turn debugging on. `0`, `false`, ` true` and an unset variable do not. |
| `Config.ThumbsDriver` | site/config/config.php:17 | The driver is `imagick` exactly when the extension is loaded, and `gd` otherwise. |
| `Config.IndexOf` | site/config/config.php:21 | `strpos` returns the first position of the character, or false when it is absent. |
| `Config.PanelPath` | site/config/config.php:19-28 | The result is the prefix of the URI before its first `?`, so it contains no `?`. A URI without `?` is returned unchanged, and an unset `REQUEST_URI` gives `""`. |
| `Config.PanelPathStripsQuery` | site/config/config.php:19-28 | For a path without `?`, `path + "?" + query` maps back to exactly `path`. |
| `Config.GlobalsCurrent` | site/config/config.php:39-41 | Defines the Globals entry's `current` check on the panel path. `Config.MenuIgnoresQuery` states it. |
| `Config.HandbooksCurrent` | site/config/config.php:47-49 | Defines the Handbooks entry's `current` check on the panel path. `Config.MenuIgnoresQuery` states it. |
| `Config.Contains` | site/config/config.php:40 | Defines `str_contains` (also line 48) as an occurrence at some position. `Config.MenuIgnoresQuery` uses it. |
| `Config.MenuIgnoresQuery` | site/config/config.php:39-49 | Globals is current iff the path contains `/panel/pages/global`, and Handbooks iff it contains `/panel/pages/sites`. The query string never counts. |
| `Config.SiteRoute` | site/config/config.php:60-63 | `site` gives the `sites` page, or the error page when there is none. |
| `Config.SitePathRoute` | site/config/config.php:66-69 | `site/<path>` gives the page `sites/<path>`, or the error page when the lookup returns null. |
| `Config.RouteErrorsOnlyWhenMissing` | site/config/config.php:66-69 | The route answers with the error page only when the lookup fails or finds the error page itself. |
| `Config.SitePathStaysUnderSites` | site/config/config.php:66-69 | With a lookup that returns the page asked for, `site/<path>` serves `sites/<path>` or the error page, never a page outside `sites/`. |

## Findings

| source | as written | input that shows it | evidently intended | confidence | as-written member | corrected member |
|---|---|---|---|---|---|---|
| svelte/src/register.ts:23-31 | The payload is parsed and its keys are counted with `Object.keys(props)`. A payload that parses to `null` makes `Object.keys` throw a TypeError out of `connectedCallback`, and nothing is mounted. | a `<script data-for>` whose text is `null` | Bad payloads are recovered locally: such a payload should give `{}` and the attribute fallback, as a malformed one does. | not executed; high (JavaScript's `Object.keys(null)` throws) | `Register.NullPayload` | `Register.PayloadProps` |
| site/templates/doc-master.php:110 | The props are encoded with `JSON_UNESCAPED_SLASHES` into a `<script>` element (also webflow.php:92). A string prop containing `</script>` is written as it is, and the HTML parser ends the script there. The browser parses a truncated document, the layout mounts with `{}`, and the rest of the JSON is rendered as markup. | a page whose `doc_title` is `</script>` | The payload reaches the browser intact: `JSON_HEX_TAG` added, so `<` and `>` are written `\u003C` and `\u003E`. JSON.parse reads them back. Without a `<`, neither an end tag nor a `<!--` can change the tokenizer's state. | not executed; high (HTML script-data end-tag rule) | `Templates.PayloadBreakout` | `Templates.HexTags` |

## Left out

- Register.PayloadProps: a payload that parses to a value other than an object or `null` is taken as `{}`. JavaScript keeps that value. An array, empty or not, is an object. A non-empty one skips the fallback. An empty one receives the fallback's entries as named properties without an error. In both cases `mount` receives the array. A non-empty string has keys too, so it skips the fallback and is passed to `mount`. An empty string, a number or a boolean goes to the fallback. There, assigning a property to the primitive throws in strict mode, but only when at least one declared attribute is present. Otherwise `mount` receives the primitive.
- JSON syntax and encoding: `JSON.parse` and `json_encode` are not modelled. Parsing is an abstract parameter, and the encoder is a parameter of the lemmas that need it. The `JSON_HEX_TAG` escaping of `<` and `>` (`Templates.HexTags`) and the plain script-data end-tag rule (`Templates.ScriptData`) are modelled on the encoded text. JSON numbers are integers in the model.
- Whitespace: the template's line breaks and indentation around the payload are not part of the script text in the model. JSON.parse skips that whitespace.
- Key order: JavaScript objects and PHP arrays keep insertion order, but the model's maps do not.
- Selector syntax: the id is spliced between double quotes in a CSS attribute selector. A `"` in the id ends that string early and usually makes the selector invalid, so `querySelector` throws. A `\` starts a CSS escape, so the selector looks for a different value: `a\z` selects `data-for="az"`. The model matches `data-for` by plain string equality.
- HTML escaping: `esc()` of the id is treated as the identity, because the browser decodes the attribute back.
- Svelte internals: `mount` and `unmount` are a fresh handle plus a log. What the component renders into the element is not modelled; the model only records that the content is cleared before mounting.
- Register.CustomElementRegistry.Define: the platform's `define` also upgrades the elements of that tag already connected, running their `connectedCallback` before it returns. The templates load the scripts last, so registration is in practice what mounts the page's elements. This is not modelled: `Define`, `Register.RegisterSvelteElement` and `MainScript.RunMainScript` change only the registry and the window, and connecting an element is the separate call `Register.SvelteElement.ConnectedCallback`.
- Templates.ScriptData: only the tokenizer's plain script-data state is modelled. A `<!--` in the payload enters the escaped states, and a later `<script` enters the double-escaped state, where the template's own `</script>` no longer ends the element. The model's text for such a payload is wrong. `Templates.PayloadBreakout` needs a `<`-free prefix and the corrected encoding leaves no `<`, so neither depends on those states.
- Tag names: `customElements.define` throws for an invalid custom-element name, which is not modelled. The three registered tags are valid names. Redefining a tag is a precondition of `Define`, which the source guards with `get`.
- Attribute names: the map of an element's attributes is assumed to hold names as HTML stores them, in ASCII lowercase. Elements outside the HTML namespace are not modelled.
- Kirby's field API: `kt()`, `toBool()`, `toFile()`, `url()` and `alt()` are abstract.
  - A missing field reads as `""`. In Kirby its `value()` is null.
  - `->or(d)` is modelled as "empty string becomes `d`"; Kirby also treats whitespace-only values as empty.
  - An image block with no alt and no file yields null, from Kirby's `or(null)`.
- `$block->rows()->toStructure()` is the block's row list.
- `strtolower` lowercases ASCII letters only, which matches PHP 8.2 and later.
- Configuration constants (`yaml.handler`, `home`, the menu labels, icons and links, `users`, `system`) are fixed values with no logic. They are not modelled.
- The readiness relay `assets/js/script.js` (`app-ready`, `app-components-ready`) is not part of this model: its ordering is decided by the browser's event loop. The build configuration `svelte/vite.config.ts`, the snippets and the plain templates (home, default, error, webflow-index) are not part of this model either.

=== FILE: ascii.dfy ===
/**
 * ASCII lowercasing, as PHP's `strtolower` and the DOM's attribute-name handling perform it:
 * only the letters A-Z change.
 */
module Ascii {
  /** One character lowercased: ASCII letters only. */
  function LowerChar(c: char): char {
    if 'A' <= c <= 'Z' then (c as int + 32) as char else c
  }

  /** A string lowercased character by character. */
  function Lower(s: string): string {
    seq(|s|, i requires 0 <= i < |s| => LowerChar(s[i]))
  }

  /** Lowercasing twice is lowercasing once. */
  lemma {:induction false} LowerIdempotent(s: string)
    ensures Lower(Lower(s)) == Lower(s)
  {
    assert forall i :: 0 <= i < |s| ==> LowerChar(LowerChar(s[i])) == LowerChar(s[i]);
  }
}

=== FILE: config.dfy ===
/**
 * The CMS configuration's computed entries: the site URL behind a proxy, the debug flag, the
 * thumbnail driver, the panel path the menu's `current` checks look at, and the `site/...` routes.
 * Environment reads (`$_SERVER`, `getenv`, `extension_loaded`) are parameters; a missing entry
 * is None.
 */
module Config {
  import opened Wrappers
  import opened Ascii

  // ---------------------------------------------------------------------------------------------
  // Site URL
  // ---------------------------------------------------------------------------------------------

  /** PHP's `empty()` on a `$_SERVER` entry: unset, the empty string, or "0". */
  predicate PhpEmpty(v: Option<string>) {
    v.None? || v.value == "" || v.value == "0"
  }

  /**
   * `$url`: null unless `HTTP_X_FORWARDED_HOST` is non-empty; then the forwarded protocol
   * (`https` when unset) and the host, joined by "://".
   */
  function SiteUrl(forwardedHost: Option<string>, forwardedProto: Option<string>): (url: Option<string>)
    ensures url.Some? <==> !PhpEmpty(forwardedHost)
    ensures url.Some? ==>
              var scheme := forwardedProto.GetOr("https");
              |url.value| == |scheme| + 3 + |forwardedHost.value| &&
              url.value[..|scheme|] == scheme && url.value[|scheme|..|scheme| + 3] == "://" &&
              url.value[|scheme| + 3..] == forwardedHost.value
  {
    if PhpEmpty(forwardedHost) then None
    else
      var scheme := forwardedProto.GetOr("https");
      var url := scheme + "://" + forwardedHost.value;
      assert url[..|scheme|] == scheme && url[|scheme|..|scheme| + 3] == "://";
      assert url[|scheme| + 3..] == forwardedHost.value;
      Some(url)
  }

  /** Without a forwarded protocol the URL is https; a host of "0" counts as empty to PHP. */
  lemma SiteUrlDefaults(host: string)
    ensures host != "" && host != "0" ==> SiteUrl(Some(host), None) == Some("https://" + host)
    ensures SiteUrl(Some("0"), Some("http")) == None
  {
    assert "https" + "://" == "https://";
  }

  // ---------------------------------------------------------------------------------------------
  // Debug flag
  // ---------------------------------------------------------------------------------------------

  /** The values of `KIRBY_DEBUG` that turn debugging on, compared after lowercasing. */
  const DebugWords: seq<string> := ["1", "true", "yes", "on"]

  /**
   * `$debug`: the lowercased `KIRBY_DEBUG` is one of the debug words; an unset variable
   * (`getenv` gives false, which casts to "") is not.
   */
  predicate DebugFlag(env: Option<string>) {
    Lower(env.GetOr("")) in DebugWords
  }

  /** The flag ignores letter case: a value and its lowercase form agree. */
  lemma DebugIgnoresCase(s: string)
    ensures DebugFlag(Some(Lower(s))) == DebugFlag(Some(s))
  {
    LowerIdempotent(s);
  }

  /**
   * Any capitalisation of a debug word turns debugging on; "0", "false", surrounding spaces and an
   * unset variable do not.
   */
  lemma DebugExamples()
    ensures DebugFlag(Some("TRUE")) && DebugFlag(Some("On")) && DebugFlag(Some("1")) && DebugFlag(Some("Yes"))
    ensures !DebugFlag(Some("0")) && !DebugFlag(Some("false")) && !DebugFlag(Some(" true")) && !DebugFlag(None)
  {
    assert Lower("TRUE") == "true";
    assert Lower("On") == "on";
    assert Lower("1") == "1";
    assert Lower("Yes") == "yes";
    assert Lower("0") == "0";
    assert Lower("false") == "false";
    assert Lower(" true") == " true";
    assert Lower("") == "";
  }

  // ---------------------------------------------------------------------------------------------
  // Thumbnail driver
  // ---------------------------------------------------------------------------------------------

  /** `$thumbsDriver`: imagick when the extension is loaded, gd otherwise. */
  function ThumbsDriver(imagickLoaded: bool): (driver: string)
    ensures driver == "imagick" || driver == "gd"
    ensures driver == "imagick" <==> imagickLoaded
  {
    if imagickLoaded then "imagick" else "gd"
  }

  // ---------------------------------------------------------------------------------------------
  // Panel path and menu
  // ---------------------------------------------------------------------------------------------

  /** `strpos($s, $c)`: the first position of `c` in `s`, None (false) when there is none. */
  function IndexOf(s: string, c: char): (pos: Option<nat>)
    ensures pos.Some? ==> pos.value < |s| && s[pos.value] == c && c !in s[..pos.value]
    ensures pos.None? ==> c !in s
  {
    if s == [] then None
    else if s[0] == c then Some(0)
    else match IndexOf(s[1..], c)
      case None => None
      case Some(k) =>
        assert s[..k + 1] == [s[0]] + s[1..][..k];
        Some(k + 1)
  }

  /**
   * `$panelPath()`: the request URI up to its first '?', so without a query string; a URI without
   * '?' is returned as it is, and an unset `REQUEST_URI` gives "".
   */
  function PanelPath(requestUri: Option<string>): (path: string)
    ensures '?' !in path
    ensures path <= requestUri.GetOr("")
    ensures |path| < |requestUri.GetOr("")| ==> requestUri.GetOr("")[|path|] == '?'
    ensures '?' !in requestUri.GetOr("") ==> path == requestUri.GetOr("")
    ensures requestUri.None? ==> path == ""
  {
    var uri := requestUri.GetOr("");
    match IndexOf(uri, '?')
    case None => uri
    case Some(q) => uri[..q]
  }

  /** The first `c` after a prefix free of `c` is found just after that prefix. */
  lemma {:induction false} IndexOfAfter(prefix: string, c: char, rest: string)
    requires c !in prefix
    ensures IndexOf(prefix + [c] + rest, c) == Some(|prefix|)
  {
    if prefix == [] {
      assert prefix + [c] + rest == [c] + rest;
    } else {
      assert (prefix + [c] + rest)[1..] == prefix[1..] + [c] + rest;
      IndexOfAfter(prefix[1..], c, rest);
    }
  }

  /** Stripping the query returns exactly the part before it. */
  lemma PanelPathStripsQuery(path: string, query: string)
    requires '?' !in path
    ensures PanelPath(Some(path + "?" + query)) == path
  {
    IndexOfAfter(path, '?', query);
    assert (path + "?" + query)[..|path|] == path;
  }

  /** `str_contains($haystack, $needle)` */
  predicate Contains(haystack: string, needle: string) {
    exists i :: 0 <= i <= |haystack| - |needle| && OccursAt(haystack, needle, i)
  }

  /** `needle` occurs in `haystack` starting at position `i`. */
  predicate OccursAt(haystack: string, needle: string, i: int) {
    0 <= i <= |haystack| - |needle| && haystack[i..i + |needle|] == needle
  }

  /** The Globals menu entry's `current` check. */
  predicate GlobalsCurrent(requestUri: Option<string>) {
    Contains(PanelPath(requestUri), "/panel/pages/global")
  }

  /** The Handbooks menu entry's `current` check. */
  predicate HandbooksCurrent(requestUri: Option<string>) {
    Contains(PanelPath(requestUri), "/panel/pages/sites")
  }

  /** Only the path decides which menu entry is current; the query string never does. */
  lemma MenuIgnoresQuery(path: string, query: string)
    requires '?' !in path
    ensures GlobalsCurrent(Some(path + "?" + query)) <==> Contains(path, "/panel/pages/global")
    ensures HandbooksCurrent(Some(path + "?" + query)) <==> Contains(path, "/panel/pages/sites")
  {
    PanelPathStripsQuery(path, query);
  }

  // ---------------------------------------------------------------------------------------------
  // Routes
  // ---------------------------------------------------------------------------------------------

  /** A page of the site, by id. */
  datatype PageRef = PageRef(id: string)

  /** The `site` route: the `sites` page, or the error page when there is none. */
  function SiteRoute(find: string -> Option<PageRef>, errorPage: PageRef): (p: PageRef)
    ensures find("sites").Some? ==> p == find("sites").value
    ensures find("sites").None? ==> p == errorPage
  {
    find("sites").GetOr(errorPage)
  }

  /** The `site/(:all)` route: the page `sites/<path>`, or the error page when there is none. */
  function SitePathRoute(find: string -> Option<PageRef>, errorPage: PageRef, path: string): (p: PageRef)
    ensures find("sites/" + path).Some? ==> p == find("sites/" + path).value
    ensures find("sites/" + path).None? ==> p == errorPage
  {
    find("sites/" + path).GetOr(errorPage)
  }

  /** A route answers with the error page only when the lookup fails or finds the error page itself. */
  lemma RouteErrorsOnlyWhenMissing(find: string -> Option<PageRef>, errorPage: PageRef, path: string)
    ensures SitePathRoute(find, errorPage, path) == errorPage <==>
              find("sites/" + path).None? || find("sites/" + path) == Some(errorPage)
  {
  }

  /**
   * When the lookup returns the page with the id asked for, `site/<path>` serves the page
   * `sites/<path>` itself or the error page: never a page outside the `sites` section.
   */
  lemma SitePathStaysUnderSites(find: string -> Option<PageRef>, errorPage: PageRef, path: string)
    requires forall q :: find(q).Some? ==> find(q).value.id == q
    ensures var p := SitePathRoute(find, errorPage, path);
            p == errorPage || (p.id == "sites/" + path && p.id[..6] == "sites/")
  {
  }
}

=== FILE: json.dfy ===
/** JSON values as the browser's JSON.parse produces them and PHP's json_encode consumes them. */
module Json {
  import opened Wrappers

  /** A JSON value. Numbers are kept as integers: no number is inspected anywhere in the model. */
  datatype Json =
    | JNull
    | JBool(b: bool)
    | JNum(n: int)
    | JStr(s: string)
    | JArr(items: seq<Json>)
    | JObj(fields: map<string, Json>)

  /** An object's key/value pairs, as the bridge keeps its props. */
  type Props = map<string, Json>

  /**
   * JSON.parse, left abstract: `None` stands for the SyntaxError it throws on malformed text,
   * `Some(v)` for the value it returns.
   */
  type Parser = string -> Option<Json>

  /**
   * `Object.keys(v).length` as JavaScript evaluates it on whatever JSON.parse returned:
   * own enumerable keys of an object, indices of an array or a string, none for numbers and
   * booleans, and a TypeError (`None`) for `null`.
   */
  function KeyCountAsWritten(v: Json): (count: Option<nat>)
    ensures count.None? <==> v == JNull
    ensures v.JObj? ==> count == Some(|v.fields|)
    ensures v.JNum? || v.JBool? ==> count == Some(0)
  {
    match v
    case JNull => None
    case JBool(_) => Some(0)
    case JNum(_) => Some(0)
    case JStr(s) => Some(|s|)
    case JArr(items) => Some(|items|)
    case JObj(fields) => Some(|fields|)
  }
}

=== FILE: main_script.dfy ===
/**
 * The client entry script: it registers the three hydrated tags with their components and
 * declared props, then announces `svelte-ready` on the window.
 */
module MainScript {
  import opened Register

  /** One `registerSvelteElement(tag, Component, propNames)` call. */
  datatype Registration = Registration(tag: string, definition: Definition)

  const HeaderProps: seq<string> := ["siteTitle", "homeUrl", "panelUrl"]
  const FooterProps: seq<string> := ["year", "siteTitle"]
  const DocsLayoutProps: seq<string> := ["pageTitle", "pageDescription", "blocks"]

  /** The registrations, in the order the script makes them. */
  const Registrations: seq<Registration> := [
    Registration("c-header", Definition(Component("Header"), HeaderProps)),
    Registration("c-footer", Definition(Component("Footer"), FooterProps)),
    Registration("l-wb-docs", Definition(Component("LayoutWbDocs"), DocsLayoutProps))
  ]

  /** The registry after making `regs` one after the other. */
  function RegisterAll(definitions: map<string, Definition>, regs: seq<Registration>): map<string, Definition>
    decreases |regs|
  {
    if regs == [] then definitions
    else RegisterAll(Registered(definitions, regs[0].tag, regs[0].definition), regs[1..])
  }

  /** Registering only adds the registered tags, and keeps every tag that was already defined. */
  lemma {:induction false} RegisterAllKeeps(definitions: map<string, Definition>, regs: seq<Registration>)
    ensures RegisterAll(definitions, regs).Keys == definitions.Keys + set r | r in regs :: r.tag
    ensures forall t :: t in definitions ==> RegisterAll(definitions, regs)[t] == definitions[t]
    decreases |regs|
  {
    if regs != [] {
      RegisterAllKeeps(Registered(definitions, regs[0].tag, regs[0].definition), regs[1..]);
      assert forall r :: r in regs <==> r == regs[0] || r in regs[1..];
    }
  }

  /** Registrations whose tags are all defined change nothing. */
  lemma {:induction false} RegisterAllNoOp(definitions: map<string, Definition>, regs: seq<Registration>)
    requires forall r :: r in regs ==> r.tag in definitions
    ensures RegisterAll(definitions, regs) == definitions
    decreases |regs|
  {
    if regs != [] {
      assert regs[0] in regs;
      RegisterAllNoOp(definitions, regs[1..]);
    }
  }

  /** Running the registrations a second time leaves the registry as the first run left it. */
  lemma RegisterAllIdempotent(definitions: map<string, Definition>, regs: seq<Registration>)
    ensures RegisterAll(RegisterAll(definitions, regs), regs) == RegisterAll(definitions, regs)
  {
    RegisterAllKeeps(definitions, regs);
    RegisterAllNoOp(RegisterAll(definitions, regs), regs);
  }

  /**
   * From a registry without these tags, the script binds exactly the three tags to their
   * components and prop lists; a tag defined beforehand keeps its earlier definition.
   */
  lemma BootRegistry(definitions: map<string, Definition>)
    ensures var after := RegisterAll(definitions, Registrations);
            after.Keys == definitions.Keys + {"c-header", "c-footer", "l-wb-docs"} &&
            ("c-header" !in definitions ==> after["c-header"] == Definition(Component("Header"), HeaderProps)) &&
            ("c-footer" !in definitions ==> after["c-footer"] == Definition(Component("Footer"), FooterProps)) &&
            ("l-wb-docs" !in definitions ==>
               after["l-wb-docs"] == Definition(Component("LayoutWbDocs"), DocsLayoutProps)) &&
            forall t :: t in definitions ==> after[t] == definitions[t]
  {
    var d1 := Registered(definitions, "c-header", Definition(Component("Header"), HeaderProps));
    var d2 := Registered(d1, "c-footer", Definition(Component("Footer"), FooterProps));
    var d3 := Registered(d2, "l-wb-docs", Definition(Component("LayoutWbDocs"), DocsLayoutProps));
    var rest := Registrations[1..];
    assert RegisterAll(definitions, Registrations) == RegisterAll(d1, rest);
    assert RegisterAll(d1, rest) == RegisterAll(d2, rest[1..]);
    assert RegisterAll(d2, rest[1..]) == RegisterAll(d3, rest[1..][1..]);
    assert rest[1..][1..] == [];
  }

  /**
   * The layout tags the home, default and error templates emit are not among those the script
   * registers, so on an otherwise empty registry they stay undefined and are never hydrated.
   */
  lemma LayoutTagsUnregistered()
    ensures var after := RegisterAll(map[], Registrations);
            "l-home" !in after && "l-default" !in after && "l-error" !in after
  {
    BootRegistry(map[]);
  }

  /** A window event, with the tags the registry had defined when it was dispatched. */
  datatype Event = Event(name: string, definedTags: set<string>)

  /** The global `window`, as the events dispatched on it. */
  class Window {
    var events: seq<Event>

    constructor()
      ensures events == []
    {
      events := [];
    }

    /** `window.dispatchEvent(new CustomEvent(name))`, seen together with the registry's state. */
    method DispatchEvent(name: string, registry: CustomElementRegistry)
      modifies this
      ensures events == old(events) + [Event(name, registry.definitions.Keys)]
    {
      events := events + [Event(name, registry.definitions.Keys)];
    }
  }

  /**
   * The whole script: the three registrations in order, then one `svelte-ready`, dispatched when
   * all three tags are defined.
   */
  method RunMainScript(registry: CustomElementRegistry, window: Window)
    modifies registry, window
    ensures registry.definitions == RegisterAll(old(registry.definitions), Registrations)
    ensures window.events == old(window.events) + [Event("svelte-ready", registry.definitions.Keys)]
    ensures {"c-header", "c-footer", "l-wb-docs"} <= registry.definitions.Keys
  {
    ghost var before := registry.definitions;
    RegisterSvelteElement(registry, "c-header", Component("Header"), HeaderProps);
    RegisterSvelteElement(registry, "c-footer", Component("Footer"), FooterProps);
    RegisterSvelteElement(registry, "l-wb-docs", Component("LayoutWbDocs"), DocsLayoutProps);
    BootRegistry(before);
    assert Registrations[1..][1..][1..] == [];
    window.DispatchEvent("svelte-ready", registry);
  }
}

=== FILE: register.dfy ===
/**
 * The custom-element bridge: `registerSvelteElement` defines, for one tag, an element class whose
 * connect/disconnect callbacks mount and unmount a Svelte component, feeding it props read from an
 * embedded JSON script or, failing that, from the element's attributes.
 *
 * The DOM is reduced to what the bridge touches: an element's attribute map and content, and a
 * document's `<script data-for>` elements in document order. Svelte's `mount`/`unmount` are an
 * object that hands out fresh instance handles and logs each call.
 */
module Register {
  import opened Wrappers
  import opened Json
  import opened Ascii

  /** An opaque reference to a compiled Svelte component (Header, Footer, ...). */
  datatype Component = Component(name: string)

  /** A `<script type="application/json" data-for="...">text</script>` element. */
  datatype Script = Script(dataFor: string, text: string)

  /** What a tag is bound to in the registry: the component and its declared prop names. */
  datatype Definition = Definition(component: Component, propNames: seq<string>)

  // ---------------------------------------------------------------------------------------------
  // Prop resolution, as functions of the element's attributes and the document's scripts
  // ---------------------------------------------------------------------------------------------

  /** `document.querySelector('script[data-for="<id>"]')`: the first such script in document order. */
  function FirstFor(scripts: seq<Script>, id: string): (found: Option<nat>)
    ensures found.Some? ==> found.value < |scripts| && scripts[found.value].dataFor == id
    ensures found.Some? ==> forall j :: 0 <= j < found.value ==> scripts[j].dataFor != id
    ensures found.None? ==> forall j :: 0 <= j < |scripts| ==> scripts[j].dataFor != id
  {
    if scripts == [] then None
    else if scripts[0].dataFor == id then Some(0)
    else match FirstFor(scripts[1..], id)
      case None => None
      case Some(k) => Some(k + 1)
  }

  /** How many scripts carry `data-for` equal to `id`. */
  function CountFor(scripts: seq<Script>, id: string): nat {
    if scripts == [] then 0
    else (if scripts[0].dataFor == id then 1 else 0) + CountFor(scripts[1..], id)
  }

  /**
   * `getAttribute(name)` on an HTML element. The attribute map is keyed by the element's attribute
   * names, which the HTML parser and `setAttribute` store in ASCII lowercase; the name asked for is
   * lowercased the same way before the lookup, so `getAttribute('siteTitle')` reads `sitetitle`.
   */
  function GetAttribute(attributes: map<string, string>, name: string): Option<string> {
    if Lower(name) in attributes then Some(attributes[Lower(name)]) else None
  }

  /** The id `if (id)` accepts: `getAttribute('id')` is neither null nor the empty string. */
  function IdOf(attributes: map<string, string>): Option<string> {
    match GetAttribute(attributes, "id")
    case Some(id) => if id != "" then Some(id) else None
    case None => None
  }

  /** The text handed to JSON.parse: `script.textContent || '{}'`. */
  function PayloadText(text: string): string {
    if text == "" then "{}" else text
  }

  /** True when JSON.parse accepts `text` and returns an object. */
  predicate ParsesToObject(parse: Parser, text: string) {
    parse(text).Some? && parse(text).value.JObj?
  }

  /**
   * The props an embedded payload supplies: the parsed object, or {} when the text is malformed
   * (the caught SyntaxError) or parses to something other than an object.
   */
  function PayloadProps(parse: Parser, text: string): (props: Props)
    ensures ParsesToObject(parse, PayloadText(text)) ==> props == parse(PayloadText(text)).value.fields
    ensures !ParsesToObject(parse, PayloadText(text)) ==> props == map[]
  {
    match parse(PayloadText(text))
    case Some(JObj(fields)) => fields
    case _ => map[]
  }

  /**
   * A payload that JSON.parse turns into `null` (the text "null"): as written, the
   * `Object.keys(props)` that follows throws a TypeError out of the callback and nothing is mounted;
   * the model's payload props are {} instead, as for a malformed payload.
   */
  lemma NullPayload(parse: Parser, attributes: map<string, string>, scripts: seq<Script>,
                    propNames: seq<string>, i: nat)
    requires IdOf(attributes).Some? && FirstFor(scripts, IdOf(attributes).value) == Some(i)
    requires parse(PayloadText(scripts[i].text)) == Some(JNull)
    ensures KeyCountAsWritten(parse(PayloadText(scripts[i].text)).value).None?
    ensures EmbeddedProps(parse, attributes, scripts) == map[]
    ensures ResolvedProps(parse, attributes, scripts, propNames) == FallbackProps(parse, attributes, propNames)
  {
  }

  /** One attribute-fallback value: JSON.parse of the attribute, or the raw string when that throws. */
  function AttributeValue(parse: Parser, raw: string): Json {
    match parse(raw)
    case Some(v) => v
    case None => JStr(raw)
  }

  /**
   * The attribute fallback: one entry, under the declared spelling, per declared prop name whose
   * attribute is present.
   */
  function FallbackProps(parse: Parser, attributes: map<string, string>, propNames: seq<string>): Props {
    map n | n in propNames && GetAttribute(attributes, n).Some? :: AttributeValue(parse, GetAttribute(attributes, n).value)
  }

  /** The props the embedded script supplies, {} when there is no id or no matching script. */
  function EmbeddedProps(parse: Parser, attributes: map<string, string>, scripts: seq<Script>): Props {
    match IdOf(attributes)
    case None => map[]
    case Some(id) =>
      match FirstFor(scripts, id)
      case None => map[]
      case Some(i) => PayloadProps(parse, scripts[i].text)
  }

  /** The props `connectedCallback` mounts the component with. */
  function ResolvedProps(parse: Parser, attributes: map<string, string>, scripts: seq<Script>,
                         propNames: seq<string>): Props {
    var embedded := EmbeddedProps(parse, attributes, scripts);
    if |embedded| == 0 then FallbackProps(parse, attributes, propNames) else embedded
  }

  /** The document's scripts once `connectedCallback` has run: the matching script, if any, removed. */
  function ScriptsAfterConnect(attributes: map<string, string>, scripts: seq<Script>): seq<Script> {
    match IdOf(attributes)
    case None => scripts
    case Some(id) =>
      match FirstFor(scripts, id)
      case None => scripts
      case Some(i) => scripts[..i] + scripts[i + 1..]
  }

  // ---------------------------------------------------------------------------------------------
  // Properties of prop resolution
  // ---------------------------------------------------------------------------------------------

  /** A payload that parses to a non-empty object is used as it is; the attributes are not read. */
  lemma PayloadWins(parse: Parser, attributes: map<string, string>, scripts: seq<Script>,
                    propNames: seq<string>, i: nat)
    requires IdOf(attributes).Some? && FirstFor(scripts, IdOf(attributes).value) == Some(i)
    requires ParsesToObject(parse, PayloadText(scripts[i].text))
    requires parse(PayloadText(scripts[i].text)).value.fields != map[]
    ensures ResolvedProps(parse, attributes, scripts, propNames) == parse(PayloadText(scripts[i].text)).value.fields
  {
  }

  /**
   * An element whose id is carried by one script, with no earlier script claiming it, mounts with
   * that script's object when it is non-empty, and the connect removes exactly that script.
   */
  lemma {:induction false} PayloadReachesElement(parse: Parser, id: string, text: string, props: Props,
                                                before: seq<Script>, after: seq<Script>, propNames: seq<string>)
    requires id != "" && forall s :: s in before ==> s.dataFor != id
    requires parse(PayloadText(text)) == Some(JObj(props)) && props != map[]
    ensures var scripts := before + [Script(id, text)] + after;
            ResolvedProps(parse, map["id" := id], scripts, propNames) == props &&
            ScriptsAfterConnect(map["id" := id], scripts) == before + after
  {
    var scripts := before + [Script(id, text)] + after;
    assert Lower("id") == "id";
    assert IdOf(map["id" := id]) == Some(id);
    assert scripts[|before|].dataFor == id;
    assert forall j :: 0 <= j < |before| ==> scripts[j] == before[j] && before[j] in before;
    assert FirstFor(scripts, id) == Some(|before|);
    assert scripts[..|before|] == before;
    assert scripts[|before| + 1..] == after;
    assert |props| != 0;
  }

  /**
   * A malformed payload yields {} without escaping, so the attribute fallback decides the props;
   * an empty script text is parsed as "{}".
   */
  lemma MalformedPayloadFallsBack(parse: Parser, attributes: map<string, string>, scripts: seq<Script>,
                                  propNames: seq<string>, i: nat)
    requires IdOf(attributes).Some? && FirstFor(scripts, IdOf(attributes).value) == Some(i)
    requires parse(PayloadText(scripts[i].text)).None?
    ensures EmbeddedProps(parse, attributes, scripts) == map[]
    ensures ResolvedProps(parse, attributes, scripts, propNames) == FallbackProps(parse, attributes, propNames)
  {
  }

  /**
   * An empty payload script is read as "{}": when JSON.parse gives the empty object for it, the
   * attributes decide the props.
   */
  lemma EmptyScriptFallsBack(parse: Parser, attributes: map<string, string>, scripts: seq<Script>,
                             propNames: seq<string>, i: nat)
    requires IdOf(attributes).Some? && FirstFor(scripts, IdOf(attributes).value) == Some(i)
    requires scripts[i].text == "" && parse("{}") == Some(JObj(map[]))
    ensures PayloadProps(parse, scripts[i].text) == PayloadProps(parse, "{}") == map[]
    ensures ResolvedProps(parse, attributes, scripts, propNames) == FallbackProps(parse, attributes, propNames)
  {
  }

  /**
   * Props come from exactly one source: a non-empty payload, or the fallback, whose keys are the
   * declared names with an attribute present and whose values are parsed-or-raw attribute values.
   */
  lemma OneSourceOfProps(parse: Parser, attributes: map<string, string>, scripts: seq<Script>,
                         propNames: seq<string>)
    ensures var props := ResolvedProps(parse, attributes, scripts, propNames);
            var embedded := EmbeddedProps(parse, attributes, scripts);
            (embedded != map[] && props == embedded) ||
            (embedded == map[] &&
             props.Keys == (set n | n in propNames && Lower(n) in attributes) &&
             forall n :: n in props ==> props[n] == AttributeValue(parse, attributes[Lower(n)]))
  {
  }

  /**
   * Attribute names match whatever their case: a camel-case declared name reads the lowercase
   * attribute the HTML parser stored, and the prop keeps the declared spelling.
   */
  lemma AttributeNamesIgnoreCase(parse: Parser)
    requires parse("Acme") == None
    ensures FallbackProps(parse, map["sitetitle" := "Acme"], ["siteTitle"]) == map["siteTitle" := JStr("Acme")]
  {
    assert Lower("siteTitle") == "sitetitle";
  }

  /** Counting scripts distributes over concatenation. */
  lemma {:induction false} CountForAppend(a: seq<Script>, b: seq<Script>, id: string)
    ensures CountFor(a + b, id) == CountFor(a, id) + CountFor(b, id)
  {
    if a == [] {
      assert a + b == b;
    } else {
      assert (a + b)[1..] == a[1..] + b;
      CountForAppend(a[1..], b, id);
    }
  }

  /** No script of a prefix that precedes the first match carries the id. */
  lemma {:induction false} CountForNone(scripts: seq<Script>, id: string)
    requires forall j :: 0 <= j < |scripts| ==> scripts[j].dataFor != id
    ensures CountFor(scripts, id) == 0
  {
    if scripts != [] {
      CountForNone(scripts[1..], id);
    }
  }

  /** A sequence with no script carrying the id has none that matches. */
  lemma {:induction false} CountForZero(scripts: seq<Script>, id: string)
    requires CountFor(scripts, id) == 0
    ensures forall j :: 0 <= j < |scripts| ==> scripts[j].dataFor != id
  {
    if scripts != [] {
      CountForZero(scripts[1..], id);
      assert forall j :: 1 <= j < |scripts| ==> scripts[j] == scripts[1..][j - 1];
    }
  }

  /**
   * Connecting removes exactly the matching script, whether or not its text parses (removal does
   * not depend on the parser): one script fewer, one fewer carrying the id, the others kept in order.
   */
  lemma {:induction false} MatchedScriptRemoved(attributes: map<string, string>, scripts: seq<Script>, i: nat)
    requires IdOf(attributes).Some? && FirstFor(scripts, IdOf(attributes).value) == Some(i)
    ensures var after := ScriptsAfterConnect(attributes, scripts);
            after == scripts[..i] + scripts[i + 1..] &&
            |after| == |scripts| - 1 &&
            CountFor(after, scripts[i].dataFor) == CountFor(scripts, scripts[i].dataFor) - 1 &&
            multiset(after) + multiset{scripts[i]} == multiset(scripts)
  {
    var id := IdOf(attributes).value;
    var after := ScriptsAfterConnect(attributes, scripts);
    assert scripts == scripts[..i] + ([scripts[i]] + scripts[i + 1..]);
    CountForAppend(scripts[..i], [scripts[i]] + scripts[i + 1..], id);
    CountForAppend([scripts[i]], scripts[i + 1..], id);
    CountForAppend(scripts[..i], scripts[i + 1..], id);
    CountForNone(scripts[..i], id);
    assert CountFor([scripts[i]], id) == 1;
  }

  /**
   * Once its only payload script has been consumed, reconnecting the element reads the attributes:
   * the payload is not available to a second mount.
   */
  lemma ReconnectReadsAttributes(parse: Parser, attributes: map<string, string>, scripts: seq<Script>,
                                 propNames: seq<string>)
    requires IdOf(attributes).Some? && CountFor(scripts, IdOf(attributes).value) == 1
    ensures ResolvedProps(parse, attributes, ScriptsAfterConnect(attributes, scripts), propNames)
            == FallbackProps(parse, attributes, propNames)
  {
    var id := IdOf(attributes).value;
    var found := FirstFor(scripts, id);
    if found.None? {
      CountForNone(scripts, id);
      assert false;
    }
    MatchedScriptRemoved(attributes, scripts, found.value);
    CountForZero(ScriptsAfterConnect(attributes, scripts), id);
  }

  // ---------------------------------------------------------------------------------------------
  // The attribute-fallback loop
  // ---------------------------------------------------------------------------------------------

  /**
   * The `for (const name of propNames)` loop: sets `props[name]` for every declared name whose
   * attribute is present, to the attribute's JSON value or, when it does not parse, its raw text.
   */
  method AttributeProps(parse: Parser, attributes: map<string, string>, propNames: seq<string>)
    returns (props: Props)
    ensures props.Keys == set n | n in propNames && Lower(n) in attributes
    ensures forall n :: n in props ==> Lower(n) in attributes && props[n] == AttributeValue(parse, attributes[Lower(n)])
  {
    props := map[];
    for k := 0 to |propNames|
      invariant props.Keys == set n | n in propNames[..k] && Lower(n) in attributes
      invariant forall n :: n in props ==> Lower(n) in attributes && props[n] == AttributeValue(parse, attributes[Lower(n)])
    {
      var name := propNames[k];
      assert propNames[..k + 1] == propNames[..k] + [name];
      var attr := GetAttribute(attributes, name);
      if attr.Some? {
        match parse(attr.value) {
          case Some(v) => props := props[name := v];
          case None => props := props[name := JStr(attr.value)];
        }
      }
    }
    assert propNames[..|propNames|] == propNames;
  }

  // ---------------------------------------------------------------------------------------------
  // The DOM and Svelte, as objects the callbacks change
  // ---------------------------------------------------------------------------------------------

  /**
   * The instance handle `mount` returns, with the element it was mounted into; two handles are the
   * same only if they are one object.
   */
  class Mounted {
    const component: Component
    const target: SvelteElement
    const props: Props

    constructor(component: Component, target: SvelteElement, props: Props)
      ensures this.component == component && this.target == target && this.props == props
    {
      this.component := component;
      this.target := target;
      this.props := props;
    }
  }

  /** A call the bridge made into Svelte. */
  datatype Call = MountCall(instance: Mounted) | UnmountCall(instance: Mounted)

  /** Svelte's `mount` and `unmount`: the instances currently live and the calls received. */
  class Svelte {
    var live: set<Mounted>
    var calls: seq<Call>

    constructor()
      ensures live == {} && calls == []
    {
      live := {};
      calls := [];
    }

    /** `mount(component, { target, props })` */
    method Mount(component: Component, target: SvelteElement, props: Props) returns (instance: Mounted)
      modifies this
      ensures fresh(instance) && instance.component == component && instance.target == target
      ensures instance.props == props
      ensures live == old(live) + {instance}
      ensures calls == old(calls) + [MountCall(instance)]
    {
      instance := new Mounted(component, target, props);
      live := live + {instance};
      calls := calls + [MountCall(instance)];
    }

    /** `unmount(instance)` */
    method Unmount(instance: Mounted)
      modifies this
      ensures live == old(live) - {instance}
      ensures calls == old(calls) + [UnmountCall(instance)]
    {
      live := live - {instance};
      calls := calls + [UnmountCall(instance)];
    }
  }

  /** The document, as the sequence of its embedded JSON scripts. */
  class Document {
    var scripts: seq<Script>

    constructor(scripts: seq<Script>)
      ensures this.scripts == scripts
    {
      this.scripts := scripts;
    }

    /** `script.remove()` */
    method RemoveScript(i: nat)
      requires i < |scripts|
      modifies this
      ensures scripts == old(scripts[..i] + scripts[i + 1..])
    {
      scripts := scripts[..i] + scripts[i + 1..];
    }
  }

  /** An element of a tag defined by `registerSvelteElement`. */
  class SvelteElement {
    const component: Component
    const propNames: seq<string>
    var attributes: map<string, string>
    var innerHTML: string
    var componentInstance: Mounted?

    /** The element starts Unmounted; its server-rendered content is kept until it connects. */
    constructor(definition: Definition, attributes: map<string, string>, innerHTML: string)
      ensures component == definition.component && propNames == definition.propNames
      ensures this.attributes == attributes && this.innerHTML == innerHTML
      ensures componentInstance == null
    {
      component := definition.component;
      propNames := definition.propNames;
      this.attributes := attributes;
      this.innerHTML := innerHTML;
      componentInstance := null;
    }

    /**
     * The element has at most one live instance, and it is the one the element holds: a Mounted
     * element's instance is live and targets the element, and no other live instance targets it.
     */
    ghost predicate Valid(svelte: Svelte)
      reads this, svelte
    {
      (componentInstance != null ==> componentInstance in svelte.live && componentInstance.target == this) &&
      forall m :: m in svelte.live && m.target == this ==> m == componentInstance
    }

    /**
     * Connecting a Mounted element changes nothing. Connecting an Unmounted one clears its
     * content, consumes its payload script, and mounts the component exactly once with the
     * resolved props under a fresh handle.
     */
    method ConnectedCallback(doc: Document, svelte: Svelte, parse: Parser)
      requires Valid(svelte)
      modifies this, doc, svelte
      ensures Valid(svelte) && componentInstance != null && attributes == old(attributes)
      ensures old(componentInstance) != null ==>
                componentInstance == old(componentInstance) && innerHTML == old(innerHTML) &&
                doc.scripts == old(doc.scripts) &&
                svelte.live == old(svelte.live) && svelte.calls == old(svelte.calls)
      ensures old(componentInstance) == null ==>
                fresh(componentInstance) && innerHTML == "" &&
                componentInstance.component == component && componentInstance.target == this &&
                componentInstance.props == ResolvedProps(parse, attributes, old(doc.scripts), propNames) &&
                doc.scripts == ScriptsAfterConnect(attributes, old(doc.scripts)) &&
                svelte.live == old(svelte.live) + {componentInstance} &&
                svelte.calls == old(svelte.calls) + [MountCall(componentInstance)]
    {
      if componentInstance != null {
        return;
      }
      innerHTML := "";

      var props: Props := map[];
      var id := IdOf(attributes);
      if id.Some? {
        var found := FirstFor(doc.scripts, id.value);
        if found.Some? {
          props := PayloadProps(parse, doc.scripts[found.value].text);
          doc.RemoveScript(found.value);
        }
      }

      if |props| == 0 {
        props := AttributeProps(parse, attributes, propNames);
      }

      componentInstance := svelte.Mount(component, this, props);
    }

    /**
     * Disconnecting an Unmounted element changes nothing. Disconnecting a Mounted one unmounts its
     * instance exactly once and returns the element to Unmounted.
     */
    method DisconnectedCallback(svelte: Svelte)
      requires Valid(svelte)
      modifies this, svelte
      ensures Valid(svelte) && componentInstance == null
      ensures attributes == old(attributes) && innerHTML == old(innerHTML)
      ensures old(componentInstance) == null ==>
                svelte.live == old(svelte.live) && svelte.calls == old(svelte.calls)
      ensures old(componentInstance) != null ==>
                svelte.live == old(svelte.live) - {old(componentInstance)} &&
                svelte.calls == old(svelte.calls) + [UnmountCall(old(componentInstance))]
    {
      if componentInstance == null {
        return;
      }
      svelte.Unmount(componentInstance);
      componentInstance := null;
    }
  }

  /**
   * Connect, a duplicate connect, disconnect, a duplicate disconnect, and connect again: two
   * mounts and one unmount reach Svelte, and the second mount has a handle of its own.
   */
  method ReconnectMountsAfresh(element: SvelteElement, doc: Document, svelte: Svelte, parse: Parser)
    returns (first: Mounted, second: Mounted)
    requires element.componentInstance == null && element.Valid(svelte)
    modifies element, doc, svelte
    ensures first != second && first !in svelte.live && second in svelte.live
    ensures svelte.calls == old(svelte.calls) + [MountCall(first), UnmountCall(first), MountCall(second)]
    ensures element.componentInstance == second && element.Valid(svelte)
  {
    element.ConnectedCallback(doc, svelte, parse);
    first := element.componentInstance;
    element.ConnectedCallback(doc, svelte, parse);
    element.DisconnectedCallback(svelte);
    element.DisconnectedCallback(svelte);
    element.ConnectedCallback(doc, svelte, parse);
    second := element.componentInstance;
  }

  // ---------------------------------------------------------------------------------------------
  // The tag registry (`customElements`)
  // ---------------------------------------------------------------------------------------------

  /** The registry after registering `tag`: defined only if it was absent. */
  function Registered(definitions: map<string, Definition>, tag: string, definition: Definition)
    : (after: map<string, Definition>)
    ensures after.Keys == definitions.Keys + {tag}
    ensures forall t :: t in definitions ==> after[t] == definitions[t]
    ensures tag !in definitions ==> after[tag] == definition
  {
    if tag in definitions then definitions else definitions[tag := definition]
  }

  /** Registering a tag a second time, with any component and props, changes nothing. */
  lemma RegisteredIdempotent(definitions: map<string, Definition>, tag: string, first: Definition, second: Definition)
    ensures Registered(Registered(definitions, tag, first), tag, second) == Registered(definitions, tag, first)
  {
  }

  /** `window.customElements`: tag names bound to their definitions; tags are never removed. */
  class CustomElementRegistry {
    var definitions: map<string, Definition>

    constructor()
      ensures definitions == map[]
    {
      definitions := map[];
    }

    /** `customElements.get(tag)` */
    function Get(tag: string): (d: Option<Definition>)
      reads this
      ensures d.Some? <==> tag in definitions
      ensures d.Some? ==> d.value == definitions[tag]
    {
      if tag in definitions then Some(definitions[tag]) else None
    }

    /** `customElements.define(tag, ...)`, which the platform refuses for a tag already defined. */
    method Define(tag: string, definition: Definition)
      requires tag !in definitions
      modifies this
      ensures definitions == old(definitions)[tag := definition]
    {
      definitions := definitions[tag := definition];
    }
  }

  /** `registerSvelteElement(tag, ComponentClass, propNames)` */
  method RegisterSvelteElement(registry: CustomElementRegistry, tag: string, component: Component,
                               propNames: seq<string>)
    modifies registry
    ensures registry.definitions == Registered(old(registry.definitions), tag, Definition(component, propNames))
  {
    if registry.Get(tag).None? {
      registry.Define(tag, Definition(component, propNames));
    }
  }
}

=== FILE: templates.dfy ===
/**
 * The two documentation page templates (doc-master and webflow): each turns the page's CMS blocks
 * into JSON records, one per block of a known type, builds the page props for the `l-wb-docs`
 * layout, and emits the placeholder element together with its `data-for` payload script.
 *
 * CMS access is abstract: a block or structure row is its map of raw field values (a missing
 * field reads as ""), and kirbytext, `toBool` and `toFile` are functions supplied by the caller.
 */
module Templates {
  import opened Wrappers
  import opened Json
  import opened Ascii
  import Register
  import MainScript

  /** An image file the CMS resolved from a field (`toFile()`): its URL and its alt text. */
  datatype File = File(url: string, alt: string)

  /** The CMS conversions the templates use. */
  datatype Cms = Cms(kirbytext: string -> string, toBool: string -> bool, toFile: string -> Option<File>)

  /** A row of a table block's `rows` structure field. */
  datatype Row = Row(fields: map<string, string>)

  /** A block of the page's `blocks` field: id, type, raw field values and, for tables, its rows. */
  datatype Block = Block(id: string, kind: string, fields: map<string, string>, rows: seq<Row>)

  /** The page being rendered. */
  datatype Page = Page(id: string, fields: map<string, string>, blocks: seq<Block>)

  /** Which template is rendering: they differ in the table block's shape and in the element id. */
  datatype Template = DocMaster | Webflow

  const TextType := "b-wb-text"
  const TableType := "b-wb-table"
  const CalloutType := "b-wb-callout"
  const ImageType := "b-wb-image"
  const DividerType := "b-wb-divider"

  /** The block types that produce a record; any other type is skipped. */
  predicate Known(kind: string) {
    kind in {TextType, TableType, CalloutType, ImageType, DividerType}
  }

  /** `$x->name()->value()`: the raw value of a field, "" when the field is missing. */
  function Value(fields: map<string, string>, name: string): string {
    if name in fields then fields[name] else ""
  }

  /** `->or(default)`: an empty value becomes the default. */
  function Or(value: string, default: string): string {
    if value == "" then default else value
  }

  // ---------------------------------------------------------------------------------------------
  // Per-type records
  // ---------------------------------------------------------------------------------------------

  function TextData(cms: Cms, b: Block): map<string, Json> {
    map[
      "heading" := JStr(Value(b.fields, "heading")),
      "headingLevel" := JStr(Or(Value(b.fields, "heading_level"), "h3")),
      "body" := JStr(cms.kirbytext(Value(b.fields, "body"))),
      "showInSidebar" := JBool(cms.toBool(Value(b.fields, "show_in_sidebar"))),
      "anchorId" := JStr(Value(b.fields, "anchor_id"))
    ]
  }

  /** The URL of a file, "" when `toFile()` found none. */
  function FileUrl(file: Option<File>): string {
    if file.Some? then file.value.url else ""
  }

  /** The alt text of a file, "" when `toFile()` found none. */
  function FileAlt(file: Option<File>): string {
    if file.Some? then file.value.alt else ""
  }

  /** One table row; only doc-master includes the image caption. */
  function RowJson(t: Template, cms: Cms, r: Row): Json {
    var file := cms.toFile(Value(r.fields, "image"));
    var shared := map[
      "image" := JStr(FileUrl(file)),
      "imageAlt" := JStr(FileAlt(file)),
      "title" := JStr(Value(r.fields, "row_title")),
      "headingLevel" := JStr(Or(Value(r.fields, "heading_level"), "h3")),
      "showInSidebar" := JBool(cms.toBool(Value(r.fields, "show_in_sidebar"))),
      "text" := JStr(cms.kirbytext(Value(r.fields, "text"))),
      "layout" := JStr(Or(Value(r.fields, "layout"), "image-left"))
    ];
    if t == DocMaster then JObj(shared["imageCaption" := JStr(Value(r.fields, "image_caption"))])
    else JObj(shared)
  }

  /** The rows of a table block, one record per structure row, in order. */
  function RowsJson(t: Template, cms: Cms, rows: seq<Row>): seq<Json> {
    seq(|rows|, k requires 0 <= k < |rows| => RowJson(t, cms, rows[k]))
  }

  /** A table's data around its already serialised rows; webflow keeps only title and rows. */
  function TableData(t: Template, cms: Cms, b: Block, rows: seq<Json>): map<string, Json> {
    match t
    case DocMaster =>
      map[
        "title" := JStr(Value(b.fields, "title")),
        "titleHeadingLevel" := JStr(Or(Value(b.fields, "title_heading_level"), "h3")),
        "titleShowInSidebar" := JBool(cms.toBool(Value(b.fields, "title_show_in_sidebar"))),
        "titleAnchorId" := JStr(Value(b.fields, "title_anchor_id")),
        "rows" := JArr(rows)
      ]
    case Webflow =>
      map["title" := JStr(Value(b.fields, "title")), "rows" := JArr(rows)]
  }

  function CalloutData(cms: Cms, b: Block): map<string, Json> {
    map[
      "variant" := JStr(Or(Value(b.fields, "variant"), "info")),
      "title" := JStr(Value(b.fields, "title")),
      "body" := JStr(cms.kirbytext(Value(b.fields, "body")))
    ]
  }

  /**
   * `->alt()->or($imageFile?->alt())`: the block's own alt, else the file's alt, else the null
   * the missing file leaves.
   */
  function ImageAlt(alt: string, file: Option<File>): Json {
    if alt != "" then JStr(alt)
    else if file.Some? then JStr(file.value.alt)
    else JNull
  }

  function ImageData(cms: Cms, b: Block): map<string, Json> {
    var file := cms.toFile(Value(b.fields, "image"));
    map[
      "image" := JStr(FileUrl(file)),
      "alt" := ImageAlt(Value(b.fields, "alt"), file),
      "caption" := JStr(Value(b.fields, "caption")),
      "fit" := JStr(Or(Value(b.fields, "fit"), "contain")),
      "maxWidth" := JStr(Or(Value(b.fields, "max_width"), "lg"))
    ]
  }

  function DividerData(b: Block): map<string, Json> {
    map[
      "style" := JStr(Or(Value(b.fields, "style"), "line")),
      "label" := JStr(Value(b.fields, "label")),
      "spacing" := JStr(Or(Value(b.fields, "spacing"), "md"))
    ]
  }

  /** The `data` of a block's record, or None for a type the templates skip. */
  function BlockData(t: Template, cms: Cms, b: Block): Option<map<string, Json>> {
    if b.kind == TextType then Some(TextData(cms, b))
    else if b.kind == TableType then Some(TableData(t, cms, b, RowsJson(t, cms, b.rows)))
    else if b.kind == CalloutType then Some(CalloutData(cms, b))
    else if b.kind == ImageType then Some(ImageData(cms, b))
    else if b.kind == DividerType then Some(DividerData(b))
    else None
  }

  /** A block's record: its id, its type and its data. */
  function Record(b: Block, data: map<string, Json>): Json {
    JObj(map["id" := JStr(b.id), "type" := JStr(b.kind), "data" := JObj(data)])
  }

  /** A block's record, or None for a type the templates skip. */
  function BlockJson(t: Template, cms: Cms, b: Block): Option<Json> {
    match BlockData(t, cms, b)
    case Some(data) => Some(Record(b, data))
    case None => None
  }

  /** The per-block serialiser of a template, as a function value. */
  function Serializer(t: Template, cms: Cms): Block -> Option<Json> {
    b => BlockJson(t, cms, b)
  }

  /** The results of `f` on `blocks`, in order, leaving out the blocks it maps to None. */
  function FilterMap(f: Block -> Option<Json>, blocks: seq<Block>): seq<Json>
    decreases |blocks|
  {
    if blocks == [] then []
    else
      var init := FilterMap(f, blocks[..|blocks| - 1]);
      match f(blocks[|blocks| - 1])
      case Some(r) => init + [r]
      case None => init
  }

  /** Extending the blocks by one extends the result by that block's result, if it has one. */
  lemma FilterMapStep(f: Block -> Option<Json>, blocks: seq<Block>, i: nat)
    requires i < |blocks|
    ensures FilterMap(f, blocks[..i + 1]) ==
            FilterMap(f, blocks[..i]) + (if f(blocks[i]).Some? then [f(blocks[i]).value] else [])
  {
    assert blocks[..i + 1][..i] == blocks[..i];
  }

  /** The records of `blocks`, known types only, in block order. */
  function BlocksJson(t: Template, cms: Cms, blocks: seq<Block>): seq<Json> {
    FilterMap(Serializer(t, cms), blocks)
  }

  // ---------------------------------------------------------------------------------------------
  // The serialisation loops
  // ---------------------------------------------------------------------------------------------

  /**
   * doc-master's `$serializeBlocks` and webflow's inline loop: for each block of a known type,
   * append its record; a table's rows are collected by an inner loop first.
   */
  method SerializeBlocks(t: Template, cms: Cms, blocks: seq<Block>) returns (serialized: seq<Json>)
    ensures serialized == BlocksJson(t, cms, blocks)
  {
    serialized := [];
    for i := 0 to |blocks|
      invariant serialized == FilterMap(Serializer(t, cms), blocks[..i])
    {
      var block := blocks[i];
      FilterMapStep(Serializer(t, cms), blocks, i);
      if block.kind == TextType {
        serialized := serialized + [Record(block, TextData(cms, block))];
      } else if block.kind == TableType {
        var rows := SerializeRows(t, cms, block.rows);
        serialized := serialized + [Record(block, TableData(t, cms, block, rows))];
      } else if block.kind == CalloutType {
        serialized := serialized + [Record(block, CalloutData(cms, block))];
      } else if block.kind == ImageType {
        serialized := serialized + [Record(block, ImageData(cms, block))];
      } else if block.kind == DividerType {
        serialized := serialized + [Record(block, DividerData(block))];
      }
    }
    assert blocks[..|blocks|] == blocks;
  }

  /** A table's inner loop over its structure rows: one row record per row, in order. */
  method SerializeRows(t: Template, cms: Cms, rows: seq<Row>) returns (serialized: seq<Json>)
    ensures serialized == RowsJson(t, cms, rows)
  {
    serialized := [];
    for j := 0 to |rows|
      invariant |serialized| == j
      invariant forall k :: 0 <= k < j ==> serialized[k] == RowJson(t, cms, rows[k])
    {
      serialized := serialized + [RowJson(t, cms, rows[j])];
    }
  }

  // ---------------------------------------------------------------------------------------------
  // What the serialisers promise
  // ---------------------------------------------------------------------------------------------

  /** A block has a record exactly when its type is known, and the record carries its id and type. */
  lemma BlockRecord(t: Template, cms: Cms, b: Block)
    ensures BlockData(t, cms, b).Some? <==> Known(b.kind)
    ensures BlockData(t, cms, b).Some? ==>
              var r := Record(b, BlockData(t, cms, b).value);
              r.fields.Keys == {"id", "type", "data"} &&
              r.fields["id"] == JStr(b.id) && r.fields["type"] == JStr(b.kind)
  {
  }

  /** The positions of the blocks `f` keeps, in increasing order. */
  function Kept(f: Block -> Option<Json>, blocks: seq<Block>): (positions: seq<nat>)
    ensures |positions| <= |blocks|
    ensures forall k :: 0 <= k < |positions| ==> positions[k] < |blocks| && f(blocks[positions[k]]).Some?
    ensures forall k, l :: 0 <= k < l < |positions| ==> positions[k] < positions[l]
    ensures forall i :: 0 <= i < |blocks| && f(blocks[i]).Some? ==> i in positions
    decreases |blocks|
  {
    if blocks == [] then []
    else
      var n := |blocks| - 1;
      var init := Kept(f, blocks[..n]);
      assert forall i :: 0 <= i < n ==> blocks[..n][i] == blocks[i];
      if f(blocks[n]).Some? then init + [n] else init
  }

  /** Result k of a filter-map is what `f` gives for the k-th block it keeps. */
  lemma {:induction false} FilterMapAt(f: Block -> Option<Json>, blocks: seq<Block>)
    ensures var out := FilterMap(f, blocks);
            var positions := Kept(f, blocks);
            |out| == |positions| &&
            forall k :: 0 <= k < |out| ==> f(blocks[positions[k]]) == Some(out[k])
    decreases |blocks|
  {
    if blocks != [] {
      var n := |blocks| - 1;
      var init := blocks[..n];
      FilterMapAt(f, init);
      assert forall i :: 0 <= i < n ==> init[i] == blocks[i];
    }
  }

  /** The positions of the blocks of a known type, in increasing order. */
  function KnownPositions(blocks: seq<Block>): seq<nat>
    decreases |blocks|
  {
    if blocks == [] then []
    else
      var n := |blocks| - 1;
      KnownPositions(blocks[..n]) + (if Known(blocks[n].kind) then [n] else [])
  }

  /** A template keeps exactly the blocks of a known type. */
  lemma {:induction false} KeptAreKnown(t: Template, cms: Cms, blocks: seq<Block>)
    ensures Kept(Serializer(t, cms), blocks) == KnownPositions(blocks)
    decreases |blocks|
  {
    if blocks != [] {
      var n := |blocks| - 1;
      KeptAreKnown(t, cms, blocks[..n]);
      BlockRecord(t, cms, blocks[n]);
    }
  }

  /**
   * The serialisers are a filter followed by a map: record k is the record of the k-th block of a
   * known type, so block order is kept, unknown types are dropped (there are never more records
   * than blocks), and each record carries its block's id and type.
   */
  lemma BlocksJsonFilterMap(t: Template, cms: Cms, blocks: seq<Block>)
    ensures var out := BlocksJson(t, cms, blocks);
            var positions := KnownPositions(blocks);
            |out| == |positions| <= |blocks| &&
            (forall k, l :: 0 <= k < l < |positions| ==> positions[k] < positions[l]) &&
            (forall i :: 0 <= i < |blocks| ==> (i in positions <==> Known(blocks[i].kind))) &&
            forall k :: 0 <= k < |out| ==>
              positions[k] < |blocks| &&
              BlockJson(t, cms, blocks[positions[k]]) == Some(out[k]) &&
              out[k].JObj? &&
              "id" in out[k].fields && out[k].fields["id"] == JStr(blocks[positions[k]].id) &&
              "type" in out[k].fields && out[k].fields["type"] == JStr(blocks[positions[k]].kind)
  {
    var f := Serializer(t, cms);
    FilterMapAt(f, blocks);
    KeptAreKnown(t, cms, blocks);
    var positions := Kept(f, blocks);
    forall i | 0 <= i < |blocks|
      ensures i in positions <==> Known(blocks[i].kind)
    {
      BlockRecord(t, cms, blocks[i]);
      if i in positions {
        var k :| 0 <= k < |positions| && positions[k] == i;
      }
    }
    var out := BlocksJson(t, cms, blocks);
    forall k | 0 <= k < |out|
      ensures positions[k] < |blocks| && BlockJson(t, cms, blocks[positions[k]]) == Some(out[k])
      ensures out[k].JObj? && "id" in out[k].fields && out[k].fields["id"] == JStr(blocks[positions[k]].id)
      ensures "type" in out[k].fields && out[k].fields["type"] == JStr(blocks[positions[k]].kind)
    {
      assert f(blocks[positions[k]]) == Some(out[k]);
      BlockRecord(t, cms, blocks[positions[k]]);
    }
  }

  /** The keys of each record's `data`, per template and block type. */
  function DataKeys(t: Template, kind: string): set<string> {
    if kind == TextType then {"heading", "headingLevel", "body", "showInSidebar", "anchorId"}
    else if kind == TableType then
      (if t == DocMaster then {"title", "titleHeadingLevel", "titleShowInSidebar", "titleAnchorId", "rows"}
       else {"title", "rows"})
    else if kind == CalloutType then {"variant", "title", "body"}
    else if kind == ImageType then {"image", "alt", "caption", "fit", "maxWidth"}
    else if kind == DividerType then {"style", "label", "spacing"}
    else {}
  }

  /** The keys of each table row record, per template. */
  function RowKeys(t: Template): set<string> {
    var shared := {"image", "imageAlt", "title", "headingLevel", "showInSidebar", "text", "layout"};
    if t == DocMaster then shared + {"imageCaption"} else shared
  }

  /** Every record's data has exactly the keys of its type's shape. */
  lemma DataShape(t: Template, cms: Cms, b: Block)
    requires Known(b.kind)
    ensures BlockData(t, cms, b).Some? && BlockData(t, cms, b).value.Keys == DataKeys(t, b.kind)
  {
  }

  /**
   * A table block's `rows` holds one record per structure row, in order, each with the row shape;
   * a row without an image file has "" for its image and its alt.
   */
  lemma TableRows(t: Template, cms: Cms, b: Block)
    requires b.kind == TableType
    ensures var data := BlockData(t, cms, b).value;
            "rows" in data && data["rows"].JArr? && |data["rows"].items| == |b.rows| &&
            forall k :: 0 <= k < |b.rows| ==>
              var row := data["rows"].items[k];
              row == RowJson(t, cms, b.rows[k]) && row.JObj? && row.fields.Keys == RowKeys(t) &&
              (cms.toFile(Value(b.rows[k].fields, "image")).None? ==>
                 row.fields["image"] == JStr("") && row.fields["imageAlt"] == JStr(""))
  {
    assert BlockData(t, cms, b).value == TableData(t, cms, b, RowsJson(t, cms, b.rows));
    forall k | 0 <= k < |b.rows|
      ensures var row := RowJson(t, cms, b.rows[k]);
              row.JObj? && row.fields.Keys == RowKeys(t) &&
              (cms.toFile(Value(b.rows[k].fields, "image")).None? ==>
                 row.fields["image"] == JStr("") && row.fields["imageAlt"] == JStr(""))
    {
      RowShape(t, cms, b.rows[k]);
    }
  }

  /** A row record has the template's row keys, and "" for its image and alt without a file. */
  lemma RowShape(t: Template, cms: Cms, r: Row)
    ensures var row := RowJson(t, cms, r);
            row.JObj? && row.fields.Keys == RowKeys(t) &&
            (cms.toFile(Value(r.fields, "image")).None? ==>
               row.fields["image"] == JStr("") && row.fields["imageAlt"] == JStr(""))
  {
  }

  /**
   * An image block's alt is its own alt, else the file's alt; with no file its image is "" and,
   * when it has no alt of its own, its alt is null.
   */
  lemma ImageFallbacks(t: Template, cms: Cms, b: Block)
    requires b.kind == ImageType
    ensures var data := BlockData(t, cms, b).value;
            var file := cms.toFile(Value(b.fields, "image"));
            (Value(b.fields, "alt") != "" ==> data["alt"] == JStr(Value(b.fields, "alt"))) &&
            (Value(b.fields, "alt") == "" && file.Some? ==> data["alt"] == JStr(file.value.alt)) &&
            (file.None? ==> data["image"] == JStr("")) &&
            (file.Some? ==> data["image"] == JStr(file.value.url)) &&
            (Value(b.fields, "alt") == "" && file.None? ==> data["alt"] == JNull)
  {
  }

  /** A data key whose CMS field falls back to a default when it is empty. */
  datatype DefaultRule = DefaultRule(kind: string, key: string, field: string, default: string)

  /** The `->or(default)` fields of each block type. */
  function DefaultRules(t: Template): seq<DefaultRule> {
    [ DefaultRule(TextType, "headingLevel", "heading_level", "h3"),
      DefaultRule(CalloutType, "variant", "variant", "info"),
      DefaultRule(ImageType, "fit", "fit", "contain"),
      DefaultRule(ImageType, "maxWidth", "max_width", "lg"),
      DefaultRule(DividerType, "style", "style", "line"),
      DefaultRule(DividerType, "spacing", "spacing", "md") ]
    + (if t == DocMaster then [DefaultRule(TableType, "titleHeadingLevel", "title_heading_level", "h3")] else [])
  }

  /**
   * Each defaulted key holds the field's value when it is not empty and the default otherwise,
   * so it is never the empty string.
   */
  lemma {:induction false} BlockDefaults(t: Template, cms: Cms, b: Block)
    ensures forall rule :: rule in DefaultRules(t) && rule.kind == b.kind ==>
              var data := BlockData(t, cms, b).value;
              rule.key in data &&
              data[rule.key] == JStr(if Value(b.fields, rule.field) == "" then rule.default
                                     else Value(b.fields, rule.field)) &&
              data[rule.key] != JStr("")
  {
    forall rule | rule in DefaultRules(t) && rule.kind == b.kind
      ensures var data := BlockData(t, cms, b).value;
              rule.key in data &&
              data[rule.key] == JStr(if Value(b.fields, rule.field) == "" then rule.default
                                     else Value(b.fields, rule.field)) &&
              data[rule.key] != JStr("")
    {
      var rules := DefaultRules(t);
      var i :| 0 <= i < |rules| && rules[i] == rule;
    }
  }

  /** A table row's heading level defaults to "h3" and its layout to "image-left". */
  lemma RowDefaults(t: Template, cms: Cms, r: Row)
    ensures var row := RowJson(t, cms, r).fields;
            row["headingLevel"] == JStr(if Value(r.fields, "heading_level") == "" then "h3"
                                        else Value(r.fields, "heading_level")) &&
            row["layout"] == JStr(if Value(r.fields, "layout") == "" then "image-left"
                                  else Value(r.fields, "layout")) &&
            row["headingLevel"] != JStr("") && row["layout"] != JStr("")
  {
  }

  /** The caption-free form of a doc-master row record. */
  function WithoutCaption(row: Json): Json {
    if row.JObj? then JObj(row.fields - {"imageCaption"}) else row
  }

  /**
   * The two templates agree on every block except tables, where webflow keeps only the title
   * and the rows, and its rows are doc-master's without the image caption.
   */
  lemma WebflowReducesDocMaster(cms: Cms, b: Block)
    ensures b.kind != TableType ==> BlockData(Webflow, cms, b) == BlockData(DocMaster, cms, b)
    ensures b.kind == TableType ==>
              var doc := BlockData(DocMaster, cms, b).value;
              var web := BlockData(Webflow, cms, b).value;
              web == map["title" := doc["title"],
                         "rows" := JArr(seq(|b.rows|, k requires 0 <= k < |b.rows| => WithoutCaption(doc["rows"].items[k])))]
  {
    if b.kind == TableType {
      var doc := BlockData(DocMaster, cms, b).value;
      var docRows := RowsJson(DocMaster, cms, b.rows);
      assert doc["rows"] == JArr(docRows);
      forall k | 0 <= k < |b.rows|
        ensures RowsJson(Webflow, cms, b.rows)[k] == WithoutCaption(docRows[k])
      {
        var r := b.rows[k];
        var shared := RowJson(Webflow, cms, r).fields;
        assert "imageCaption" !in shared;
        assert RowJson(DocMaster, cms, r).fields - {"imageCaption"} == shared;
      }
      assert RowsJson(Webflow, cms, b.rows)
          == seq(|b.rows|, k requires 0 <= k < |b.rows| => WithoutCaption(doc["rows"].items[k]));
    }
  }

  // ---------------------------------------------------------------------------------------------
  // The page props, the element id and the emitted markup
  // ---------------------------------------------------------------------------------------------

  /** `$props`: the page title (the doc title, else the page title), description and blocks. */
  function PageProps(t: Template, cms: Cms, page: Page): Props {
    map[
      "pageTitle" := JStr(Or(Value(page.fields, "doc_title"), Value(page.fields, "title"))),
      "pageDescription" := JStr(cms.kirbytext(Value(page.fields, "doc_description"))),
      "blocks" := JArr(BlocksJson(t, cms, page.blocks))
    ]
  }

  /** `$id`: the template's prefix followed by the page id. */
  function ElementId(t: Template, page: Page): string {
    (if t == DocMaster then "doc-master-" else "webflow-doc-") + page.id
  }

  /** The placeholder element and its payload script, as the template emits them. */
  datatype Markup = Markup(tag: string, id: string, scriptFor: string, props: Props)

  function Render(t: Template, cms: Cms, page: Page): Markup {
    Markup("l-wb-docs", ElementId(t, page), ElementId(t, page), PageProps(t, cms, page))
  }

  /**
   * The placeholder is an `l-wb-docs` whose id, the template's prefix and the page id, is the
   * `data-for` of its script; the props are exactly the layout's declared prop names.
   */
  lemma MarkupContract(t: Template, cms: Cms, page: Page)
    ensures var m := Render(t, cms, page);
            var prefix := if t == DocMaster then "doc-master-" else "webflow-doc-";
            m.tag == "l-wb-docs" && m.id == m.scriptFor && m.id != "" &&
            m.id[..|prefix|] == prefix && m.id[|prefix|..] == page.id &&
            m.props.Keys == set n | n in MainScript.DocsLayoutProps
  {
  }

  // ---------------------------------------------------------------------------------------------
  // The payload as the browser reads it back out of the page
  // ---------------------------------------------------------------------------------------------

  /**
   * The HTML tokenizer sees the script element's end tag at position `i` of the payload: `</`, the
   * tag name `script` in any letter case, then whitespace, `/` or `>`. At the payload's end the
   * template's own line break follows, which also ends the tag name.
   */
  predicate EndTagAt(raw: string, i: nat) {
    i + 8 <= |raw| && raw[i] == '<' && raw[i + 1] == '/' && Lower(raw[i + 2..i + 8]) == "script" &&
    (i + 8 == |raw| || raw[i + 8] in {' ', '\t', '\n', '\r', '\U{000C}', '/', '>'})
  }

  /** The first end tag at or after position `i`, None when there is none. */
  function EndTagFrom(raw: string, i: nat): (k: Option<nat>)
    requires i <= |raw|
    ensures k.Some? ==> i <= k.value < |raw| && EndTagAt(raw, k.value)
    ensures k.Some? ==> forall j :: i <= j < k.value ==> !EndTagAt(raw, j)
    ensures k.None? ==> forall j :: i <= j < |raw| ==> !EndTagAt(raw, j)
    decreases |raw| - i
  {
    if i == |raw| then None
    else if EndTagAt(raw, i) then Some(i)
    else EndTagFrom(raw, i + 1)
  }

  /**
   * The text content the browser gives the payload script, as the tokenizer's plain script-data
   * state reads it: the payload up to the first end tag in it, the whole payload exactly when it
   * holds no end tag. The escaped states that a `<!--` enters are not modelled; a payload without
   * `<` never leaves the plain state.
   */
  function ScriptData(raw: string): (text: string)
    ensures text <= raw
    ensures text == raw <==> forall j :: 0 <= j < |raw| ==> !EndTagAt(raw, j)
    ensures text != raw ==> EndTagAt(raw, |text|) && forall j :: 0 <= j < |text| ==> !EndTagAt(raw, j)
  {
    match EndTagFrom(raw, 0)
    case None => raw
    case Some(k) => raw[..k]
  }

  /**
   * `json_encode` with `JSON_HEX_TAG`: every `<` of the encoded text is written `\u003C` and every
   * `>` is written `\u003E` (both can only stand inside a JSON string), so neither is left.
   */
  function HexTags(raw: string): (escaped: string)
    ensures '<' !in escaped && '>' !in escaped
    ensures '<' !in raw && '>' !in raw ==> escaped == raw
  {
    if raw == [] then []
    else
      var head := if raw[0] == '<' then "\\u003C" else if raw[0] == '>' then "\\u003E" else [raw[0]];
      head + HexTags(raw[1..])
  }

  /**
   * A payload encoded with `JSON_HEX_TAG` holds no `<`. Every way out of the tokenizer's plain
   * script-data state starts at a `<` (an end tag, or the `<!--` that enters the escaped states),
   * so the script element carries all of the payload.
   */
  lemma {:induction false} EscapedPayloadIntact(raw: string)
    ensures '<' !in HexTags(raw)
    ensures ScriptData(HexTags(raw)) == HexTags(raw)
  {
    var e := HexTags(raw);
    forall j | 0 <= j < |e|
      ensures !EndTagAt(e, j)
    {
      assert e[j] in e;
    }
  }

  /**
   * As the templates write it, `json_encode(..., JSON_UNESCAPED_SLASHES)` keeps a `</script>` inside
   * a string prop (a title, a description or a caption) as it is. The browser then ends the script
   * element there: the script's text is only the encoding before it, a truncated document that
   * JSON.parse rejects. The layout then mounts with no props at all, since its placeholder carries
   * no prop attributes.
   */
  lemma PayloadBreakout(t: Template, cms: Cms, page: Page, parse: Parser, encode: Json -> string,
                        prefix: string, suffix: string)
    requires encode(JObj(Render(t, cms, page).props)) == prefix + "</script>" + suffix
    requires '<' !in prefix && prefix != "" && parse(prefix) == None
    ensures var m := Render(t, cms, page);
            var text := ScriptData(encode(JObj(m.props)));
            text == prefix &&
            Register.ResolvedProps(parse, map["id" := m.id], [Register.Script(m.scriptFor, text)],
                                   MainScript.DocsLayoutProps) == map[]
  {
    var m := Render(t, cms, page);
    ScriptDataStopsAtEndTag(prefix, suffix);
    MarkupContract(t, cms, page);
    TruncatedPayloadMountsEmpty(parse, m.id, prefix);
  }

  /** The script's text stops at a `</script>` that follows a stretch free of `<`. */
  lemma ScriptDataStopsAtEndTag(prefix: string, suffix: string)
    requires '<' !in prefix
    ensures ScriptData(prefix + "</script>" + suffix) == prefix
  {
    var raw := prefix + "</script>" + suffix;
    var p := |prefix|;
    assert raw[p + 2..p + 8] == "script" && raw[p + 8] == '>';
    assert Lower("script") == "script";
    assert EndTagAt(raw, p);
    assert forall j :: 0 <= j < p ==> raw[j] == prefix[j];
    assert raw[..p] == prefix;
  }

  /** A layout placeholder whose only payload does not parse mounts with no props. */
  lemma TruncatedPayloadMountsEmpty(parse: Parser, id: string, text: string)
    requires id != "" && text != "" && parse(text) == None
    ensures Register.ResolvedProps(parse, map["id" := id], [Register.Script(id, text)],
                                   MainScript.DocsLayoutProps) == map[]
  {
    assert Lower("id") == "id";
    assert Register.IdOf(map["id" := id]) == Some(id);
    assert Register.FirstFor([Register.Script(id, text)], id) == Some(0);
    assert forall n :: n in MainScript.DocsLayoutProps ==> |Lower(n)| > 2;
  }

  /**
   * Hydration end to end, with the payload encoded with `JSON_HEX_TAG` (no `<` left): when the browser's JSON.parse reads that text back as the page props, connecting the
   * placeholder mounts the layout with exactly the page props and consumes the page's script,
   * provided no earlier script in the document claims the same id.
   */
  lemma PagePropsReachLayout(t: Template, cms: Cms, page: Page, parse: Parser, encode: Json -> string,
                             before: seq<Register.Script>, after: seq<Register.Script>)
    requires var m := Render(t, cms, page);
             parse(Register.PayloadText(HexTags(encode(JObj(m.props))))) == Some(JObj(m.props))
    requires forall s :: s in before ==> s.dataFor != ElementId(t, page)
    ensures var m := Render(t, cms, page);
            var text := ScriptData(HexTags(encode(JObj(m.props))));
            var scripts := before + [Register.Script(m.scriptFor, text)] + after;
            Register.ResolvedProps(parse, map["id" := m.id], scripts, MainScript.DocsLayoutProps) == m.props &&
            Register.ScriptsAfterConnect(map["id" := m.id], scripts) == before + after
  {
    var m := Render(t, cms, page);
    EscapedPayloadIntact(encode(JObj(m.props)));
    MarkupContract(t, cms, page);
    assert m.props.Keys == {"pageTitle", "pageDescription", "blocks"};
    Register.PayloadReachesElement(parse, m.id, HexTags(encode(JObj(m.props))), m.props, before, after,
                                   MainScript.DocsLayoutProps);
  }
}

=== FILE: wrappers.dfy ===
/** Optional values: JavaScript's `null`, PHP's `null` and `?->`, and partial lookups. */
module Wrappers {

  datatype Option<+T> = None | Some(value: T) {

    /** The contained value, or `default` when there is none (`??` in PHP and JavaScript). */
    function GetOr(default: T): T {
      match this
      case Some(v) => v
      case None => default
    }
  }
}
